=== FILE: README.md ===
# 4eyes agent: frame buffer, upload pipeline and indexing, in Dafny

This project models the deterministic core of the `agent/` package of 4eyes.
The package watches a live video stream and keeps a rolling window of
PNG-encoded frames. When a "button" data packet arrives, it hands the newest
frame to a summariser. A separate pipeline stores an animated GIF and makes it
findable by natural-language search. That pipeline describes the GIF with a
language model, uploads it to Supabase storage (compressing it first when it is
over 50 MiB), stores a metadata row, and indexes three paraphrase questions in
ViaRAG.

Every call to the outside world becomes an oracle value. This covers the
language model, PIL, OpenCV/LiveKit conversion, `requests.post`, the Supabase
table client, the ViaRAG client, `uuid4`, `utcnow`, temp-file names, and UTF-8
and JSON decoding. Each oracle either returns a value or raises. The pipeline
is a pure function from those answers to an ordered list of effects plus a
result or an error. Nothing is compensated, so the effects of the stages that
ran before a failure stay in the list.

Modules, one per concern of the source:

- `Common`: bytes, and `Option`/`Result` standing for "returned or raised".
- `PyStr`: the Python string methods the parser depends on: `strip`, `lstrip`
  with a character set, `splitlines`, and `"\n".join` as its inverse. They use
  Python's full whitespace and line-boundary sets.
- `Subscriber` (`agent/subscriber.py`): the 100-frame buffer, one iteration of
  the video loop, the whole loop, and the data-packet handler.
- `Questions` (`agent/storage.py`, the tail of `generate_hypotheticals`): the
  parser that turns a model reply into exactly `k` questions.
- `RagService` (`agent/rag_service.py`): `default_format_fn`, and the document,
  metadata and temp-file life cycle of `upload_single_gif_summary`.
- `Storage` (the rest of `agent/storage.py`): the frame and duration rules of
  `compress_gif_bytes`, the size guard and URLs of `upload_gif_to_supabase`,
  `store_metadata`, `add_to_vector_store`, and `send_gif_to_supabase_pipeline`.

The code has no decimation, crop, delay, snapshot or retry, and the model
follows it:

- Every converted frame is appended. There is no decimation counter, no crop
  and no post-trigger delay.
- The button handler reads `FRAMES[-1]` directly. No snapshot is taken and no
  GIF is built from the buffer.
- UTF-8 and JSON failures in the data handler are not caught. They escape
  `on_data_received`; what the SDK's event dispatch does with them is not
  modelled.
- The summary is made from the original bytes, before the size guard runs.
- The size guard compresses once and never checks the size again. There is no
  retry and no size-exceeded error.

## Model

| member | source | states |
|---|---|---|
| Subscriber.Append | agent/subscriber.py:94-96 | From a buffer of at most 100 frames the result still holds at most 100. The new frame is last. Below the cap all earlier frames are kept in order; at the cap exactly the oldest one is dropped. |
| Subscriber.AppendKeepsNewest | agent/subscriber.py:94-96 | One append to a buffer within the cap yields the newest 100 of the buffer with the new frame appended. |
| Subscriber.IngestFrame | agent/subscriber.py:80-106 | A conversion that raises leaves the buffer unchanged and logs an error. An encoding that returns appends its buffer whether or not `success` is true, and logs a failure exactly when `success` is false. |
| Subscriber.NoDecimation | agent/subscriber.py:74-96 | When every iteration reaches the append, the buffered frames are exactly the encoded frames, one per iteration, in arrival order. |
| Subscriber.ProcessVideoFrames | agent/subscriber.py:73-106 | After any run of iterations, including failed ones, the buffer holds the newest 100 of the old buffer followed by every frame that reached the append. It never holds more than 100. |
| Subscriber.HandleData | agent/subscriber.py:48-58 | A packet with no sender raises an attribute error for every topic, before decoding. A bad UTF-8 or JSON payload raises for every topic. The summariser is called exactly when the payload parses, the topic is "button" and the buffer is non-empty, and it gets the last frame. A "button" packet with an empty buffer raises an index error. Any other topic is ignored. |
| Subscriber.OnEvent | agent/subscriber.py:47-106 | A data packet never changes the buffer. A video frame never calls the summariser and changes the buffer as one loop iteration does. |
| Subscriber.ButtonSummarizesLatestFrame | agent/subscriber.py:55-98 | A button packet right after a frame reached the append summarises that frame, even when its encoding reported failure. |
| PyStr.LStrip | agent/storage.py:133 | `lstrip` returns a suffix of its argument. Every removed character is in the set, and the first kept character is not. |
| PyStr.RStrip | agent/storage.py:129 | The right half of `strip`: it returns a prefix of its argument. Every removed character is in the set, and the last kept character is not. |
| PyStr.SplitJoin | agent/storage.py:126 | `splitlines` recovers the lines that `"\n".join` put together, when no line has a boundary character and the last line is not empty. |
| Questions.ParseQuestions | agent/storage.py:125-139 | The parser succeeds exactly when the reply has `k` non-blank lines. It then returns exactly `k` questions: question `i` is the cleaned `i`-th non-blank line. Otherwise it raises with the expected and actual counts. It never pads or truncates. |
| Questions.CollectIsCleanedNonBlank | agent/storage.py:126-134 | The loop yields one question per non-blank line, in the original order, and nothing for a blank line. |
| Questions.CleanLineIsInfix | agent/storage.py:132-133 | A cleaned line is a contiguous piece of the line. A line that does not start with a digit or "-" is kept whole. |
| Questions.NonAsciiLeadUnchanged | agent/storage.py:132-133 | A stripped line whose first character is not in "0123456789.-) " comes out of the marker branch unchanged. So testing for an ASCII digit instead of `isdigit` gives the same questions. |
| Questions.MarkerOnlyLineCounts | agent/storage.py:129-137 | A line such as "1." becomes the empty question and still counts towards `k`: with `k` = 2 the reply parses to it and the next line; with `k` = 1 it raises with 2 found. |
| Questions.NumberedListRoundTrip | agent/storage.py:117-139 | A reply written as the numbered list the prompt asks for ("1. q1", "2. q2", ...) parses back to exactly those questions, for one-line questions without surrounding blanks or a leading marker. |
| RagService.DefaultFormat | agent/rag_service.py:45-46 | The formatted text is the path, then ":\n", then the summary, at those exact positions. |
| RagService.DefaultFormatInjective | agent/rag_service.py:45-46 | For paths without a newline, the path and the summary can be read back from the formatted text. |
| RagService.UploadSingleGifSummary | agent/rag_service.py:13-41 | The summary is written to a temp file, uploaded, and the file is removed last, whether the client returns or raises. The metadata is exactly `{gif_path: file_path}`, there is no chunking config, and the client's response or exception is passed through. |
| RagService.UploadIsNotFormatted | agent/rag_service.py:28-29 | The uploaded text is never `default_format_fn` of the path and summary: the formatter is not applied. |
| Storage.FrameDuration | agent/storage.py:50 | `max(1, int(1000 / fps))`. It raises exactly when fps is 0 and is at least 1. For 0 < fps <= 1000 it is the largest `d` with `d * fps <= 1000`. Any other fps gives 1. |
| Storage.ResizeFrames | agent/storage.py:51-57 | One output frame per input frame, in order. A frame wider than `max_width` becomes exactly that wide, with the height given by the resize oracle. Any other frame is unchanged. It raises exactly when resizing some wide frame raised, and names the first such frame. |
| Storage.CompressLayout | agent/storage.py:45-71 | An unreadable image, fps = 0, a failed resize or an image with no frames raise. Otherwise the layout has as many frames as the input; a frame wider than `max_width` becomes `max_width` wide with the height the resize returned, and any other frame is kept. Every frame lasts `max(1, int(1000 / fps))` ms, and the GIF loops forever. |
| Storage.DefaultLayout | agent/storage.py:45-71 | With the defaults `max_width` = 400 and fps = 10, every frame lasts 100 ms and none is wider than 400 pixels. |
| Storage.SummarizeGif | agent/storage.py:31-42 | One model call on the bytes it is given. It returns the model's reply or raises. |
| Storage.UploadGif | agent/storage.py:74-93 | A GIF of at most 50 MiB is posted as is. A larger one is compressed once and the result is posted without checking its size again. The upload succeeds exactly on status 200 or 201 and then returns the public URL. Otherwise it raises. |
| Storage.CompressOnlyWhenOver | agent/storage.py:76-78 | Compression happens exactly when the GIF is strictly larger than 50 * 1024 * 1024 bytes, and only as the first effect. |
| Storage.PublicUrlInsertsPublic | agent/storage.py:81-91 | The returned public URL is the upload URL with "public/" inserted after "/storage/v1/object/". |
| Storage.StoreMetadata | agent/storage.py:96-105 | One insert of the row. It succeeds exactly when the insert returns at least one row, and raises when it returns none or raises itself. |
| Storage.GenerateHypotheticals | agent/storage.py:107-139 | One model call. It succeeds exactly when the reply came back and parses to `k` questions, and returns the parser's questions. A missing reply raises the model call's own error. A reply with the wrong count raises the count mismatch, naming `k` and the number of non-blank reply lines. |
| Storage.IndexFrom | agent/storage.py:144-145 | One upload per question, in order, each tagged with the same path; a question counts as indexed only when its temp file was written and then uploaded. Indexing succeeds exactly when every upload returns, and then has uploaded every question. Otherwise it stops at the first upload that raised, after uploading that question and the ones before it. Every upload comes right after the write of the temp file it uploads. |
| Storage.AddToVectorStore | agent/storage.py:141-145 | It asks for three questions and uploads exactly the parsed three, in parser order, when the reply parses and all three uploads return. When the reply is missing or has the wrong count, its only effect is the question request. When upload `j` raises, it has uploaded exactly the first `j + 1` parsed questions. Every upload follows the write of its own temp file, so the number of uploads equals the number of indexed questions. |
| Storage.SendGifToSupabasePipeline | agent/storage.py:147-170 | The first effect is always the description of the original bytes. On success the result is the summary, the public URL and "gifs/<uuid>.gif". |
| Storage.PipelineSucceedsIff | agent/storage.py:147-170 | The pipeline returns its dictionary exactly when every collaborator answered in the way that lets it go on. |
| Storage.PipelineStopsAtFailure | agent/storage.py:151-163 | The effects go through the stages in order: describe, upload, store, index. A run that raises at a stage did something in every earlier stage, kept it, and did nothing later. A successful run went through all four stages. |
| Storage.PipelineUsesOnePath | agent/storage.py:148-170 | The path starts with "gifs/" and ends with ".gif". The metadata row, every indexed document and the returned dictionary all carry that same path. |
| Storage.PipelineFanOut | agent/storage.py:141-163 | A successful run uploaded exactly three documents to the index: the parsed questions, in parser order. A run whose question reply is missing or wrongly counted uploads none. |
| Storage.PipelineUploadsPaired | agent/storage.py:141-163 | In every run, whichever stage stops it, each upload to the index comes right after the write of the temp file it uploads. The number of uploads therefore equals the number of indexed texts: no bare or repeated upload. |
| Storage.PairedUploadsCounted | agent/rag_service.py:13-41 | When every upload follows the write of its own temp file, counting the uploads gives exactly the number of texts indexed. |

## Left out

- `agent/summarizer.py` is not part of this model. It consists of model calls, file reading and graph wiring; the handler's call to `summarize_png` is modelled as a `Summarize(frame)` dispatch, and what the summariser does or raises is left out.
- Every collaborator is an oracle. This covers the language model, `requests.post`, the Supabase client, the ViaRAG client, and LiveKit/OpenCV/numpy frame conversion. Their requests, headers, credentials and wire formats are not modelled.
- Storage.CompressLayout: the height of a resized frame, `int(height * (max_width / width))` computed with Python floats in `compress_gif_bytes`, is left as an oracle value; `None` stands for PIL's `resize` raising. Palette conversion, LANCZOS filtering, `optimize=True` and the encoded bytes are left out.
- Storage.UploadGif: the compressed bytes are an oracle (`compressed`), not linked to `CompressLayout`, because their size cannot be predicted from the frame layout.
- UTF-8 decoding and JSON parsing are may-fail oracles (`Payload`), not verified codecs. The parsed JSON value is only logged, so it is not modelled.
- Base64 encoding in `summarize_gif` and in the video loop is left out. Its results are only sent to the model or dropped.
- Logging and `print` are left out, except for the kind of log line one video-loop iteration writes.
- asyncio, task creation, room connection and signal handling are left out. The loop is single-threaded and there is no `await` between the append and the pop, so each callback is one atomic step.
- Subscriber.ProcessVideoFrames models one stream's run of frames. Several video tracks write into the same buffer, and `OnEvent` covers any interleaving of their frames with data packets one event at a time.
- `uuid4`, `utcnow` and temp-file names are opaque values. `SUPABASE_URL` is a string; the case where it is unset and Python formats it as "None" is not distinguished.
- Failures of the temp-file write and of `os.remove` are not modelled. Writing is assumed to succeed and removal always happens.
- The `__main__` blocks are left out, including the call that passes a `format_fn` keyword the function no longer accepts.

=== FILE: common.dfy ===
/**
 Shared vocabulary: byte strings, and the Option and failure-compatible Result
 datatypes used to stand for a Python call that returns or raises.
 */
module Common {

  type Byte = bv8
  type Bytes = seq<Byte>

  /** A value that may be absent: a collaborator call that raised, or Python's `None`. */
  datatype Option<+T> = None | Some(value: T)

  /** The outcome of a Python function: its return value, or the exception it raised. */
  datatype Result<+T, +E> = Ok(value: T) | Err(error: E) {
    predicate IsFailure() { Err? }

    function PropagateFailure<U>(): Result<U, E>
      requires Err?
    {
      Err(error)
    }

    function Extract(): T
      requires Ok?
    {
      value
    }
  }

  /** A non-empty sequence is its head followed by its tail. */
  lemma HeadTail<T>(s: seq<T>)
    requires |s| > 0
    ensures [s[0]] + s[1..] == s
  {
  }

  /** A piece of a suffix is a piece of the whole. */
  lemma SliceOfSuffix<T>(s: seq<T>, a: nat, b: nat, c: nat)
    requires a + b + c <= |s|
    ensures s[a..][b..][..c] == s[a + b..a + b + c]
  {
  }
}

=== FILE: pystr.dfy ===
/**
 The Python `str` methods the question parser relies on: `strip`, `lstrip`
 with a character set, `splitlines`, and `"\n".join` as the inverse of
 `splitlines` used by the round-trip lemmas. Whitespace and line boundaries
 are Python's full sets, not only their ASCII members.
 */
module PyStr {

  /** `str.isspace` for one character: what `str.strip()` removes. */
  predicate IsSpace(c: char) {
    || c == ' '
    || '\t' <= c <= '\r'
    || '\U{1C}' <= c <= '\U{1F}'
    || c == '\U{85}' || c == '\U{A0}' || c == '\U{1680}'
    || '\U{2000}' <= c <= '\U{200A}'
    || c == '\U{2028}' || c == '\U{2029}' || c == '\U{202F}' || c == '\U{205F}' || c == '\U{3000}'
  }

  /** The characters at which `str.splitlines` ends a line (`"\r\n"` counts once). */
  predicate IsLineBreak(c: char) {
    || '\n' <= c <= '\r'
    || '\U{1C}' <= c <= '\U{1E}'
    || c == '\U{85}' || c == '\U{2028}' || c == '\U{2029}'
  }

  predicate NoBreaks(s: string) {
    forall i :: 0 <= i < |s| ==> !IsLineBreak(s[i])
  }

  /** `s.lstrip(chars)` where `drop` is membership in `chars`. */
  function LStrip(s: string, drop: char -> bool): (r: string)
    ensures |r| <= |s| && r == s[|s| - |r|..]
    ensures |r| > 0 ==> !drop(r[0])
    ensures forall i :: 0 <= i < |s| - |r| ==> drop(s[i])
    decreases |s|
  {
    if |s| > 0 && drop(s[0]) then LStrip(s[1..], drop) else s
  }

  /** `s.rstrip(chars)` where `drop` is membership in `chars`. */
  function RStrip(s: string, drop: char -> bool): (r: string)
    ensures |r| <= |s| && r == s[..|r|]
    ensures |r| > 0 ==> !drop(r[|r| - 1])
    ensures forall i :: |r| <= i < |s| ==> drop(s[i])
    decreases |s|
  {
    if |s| > 0 && drop(s[|s| - 1]) then RStrip(s[..|s| - 1], drop) else s
  }

  /** `s.strip()`. */
  function Strip(s: string): string {
    RStrip(LStrip(s, IsSpace), IsSpace)
  }

  /** Index of the first line boundary of `s`, or `|s|` when there is none. */
  function LineEnd(s: string): (i: nat)
    ensures i <= |s|
    ensures forall j :: 0 <= j < i ==> !IsLineBreak(s[j])
    ensures i < |s| ==> IsLineBreak(s[i])
  {
    if |s| == 0 || IsLineBreak(s[0]) then 0 else 1 + LineEnd(s[1..])
  }

  /** `s.splitlines()`: no final empty line after a trailing boundary. */
  function SplitLines(s: string): (lines: seq<string>)
    ensures forall i :: 0 <= i < |lines| ==> NoBreaks(lines[i])
    decreases |s|
  {
    if |s| == 0 then []
    else
      var i := LineEnd(s);
      if i == |s| then [s]
      else
        var next := if s[i] == '\r' && i + 1 < |s| && s[i + 1] == '\n' then i + 2 else i + 1;
        [s[..i]] + SplitLines(s[next..])
  }

  /** `"\n".join(lines)`. */
  function JoinLines(lines: seq<string>): string
    decreases |lines|
  {
    if |lines| == 0 then ""
    else if |lines| == 1 then lines[0]
    else lines[0] + "\n" + JoinLines(lines[1..])
  }

  /** A string whose ends are not whitespace is its own `strip()`. */
  lemma StripUnchanged(s: string)
    requires |s| > 0 ==> !IsSpace(s[0]) && !IsSpace(s[|s| - 1])
    ensures Strip(s) == s
  {
  }

  /** `lstrip` passes over a prefix made only of dropped characters. */
  lemma {:induction false} LStripSkipsPrefix(a: string, b: string, drop: char -> bool)
    requires forall i :: 0 <= i < |a| ==> drop(a[i])
    ensures LStrip(a + b, drop) == LStrip(b, drop)
    decreases |a|
  {
    if |a| > 0 {
      assert (a + b)[1..] == a[1..] + b;
      LStripSkipsPrefix(a[1..], b, drop);
    } else {
      assert a + b == b;
    }
  }

  lemma LineEndAt(a: string, b: string)
    requires NoBreaks(a)
    requires |b| > 0 && IsLineBreak(b[0])
    ensures LineEnd(a + b) == |a|
  {
    assert (a + b)[|a|] == b[0];
  }

  /** The first character of a join is that of the first line. */
  lemma JoinLinesFirst(lines: seq<string>)
    requires |lines| > 0 && |lines[0]| > 0
    ensures |JoinLines(lines)| > 0 && JoinLines(lines)[0] == lines[0][0]
  {
  }

  /** The last character of a join is that of the last line. */
  lemma {:induction false} JoinLinesLast(lines: seq<string>)
    requires |lines| > 0 && |lines[|lines| - 1]| > 0
    ensures |JoinLines(lines)| > 0
    ensures JoinLines(lines)[|JoinLines(lines)| - 1] == lines[|lines| - 1][|lines[|lines| - 1]| - 1]
    decreases |lines|
  {
    if |lines| > 1 {
      JoinLinesLast(lines[1..]);
    }
  }

  /**
   `splitlines` undoes `"\n".join` for lines without boundaries, provided the
   last line is not empty (a trailing boundary yields no final line).
   */
  lemma {:induction false} SplitJoin(lines: seq<string>)
    requires forall i :: 0 <= i < |lines| ==> NoBreaks(lines[i])
    requires |lines| > 0 ==> |lines[|lines| - 1]| > 0
    ensures SplitLines(JoinLines(lines)) == lines
    decreases |lines|
  {
    if |lines| == 1 {
      var s := lines[0];
      assert LineEnd(s) == |s|;
    } else if |lines| > 1 {
      var rest := JoinLines(lines[1..]);
      var s := lines[0] + ("\n" + rest);
      assert JoinLines(lines) == s;
      LineEndAt(lines[0], "\n" + rest);
      assert s[..|lines[0]|] == lines[0];
      assert s[|lines[0]|] == '\n';
      assert s[|lines[0]| + 1..] == rest;
      SplitJoin(lines[1..]);
      assert [lines[0]] + lines[1..] == lines;
    }
  }
}

=== FILE: questions.dfy ===
/**
 The string-processing half of `generate_hypotheticals` (agent/storage.py):
 the language model's reply is stripped and split into lines, blank lines are
 dropped, a numbering or bullet prefix is removed, and the result must hold
 exactly `k` questions or the call raises `ValueError`.

 `str.isdigit` accepts every Unicode digit while the characters `lstrip`
 removes are ASCII only; `NonAsciiLeadUnchanged` shows that a line led by any
 other digit comes out of that branch unchanged, so testing for an ASCII digit
 gives the same result.
 */
module Questions {
  import opened Common
  import opened PyStr

  /** The `k` default of `generate_hypotheticals`. */
  const DefaultCount: int := 3

  predicate IsAsciiDigit(c: char) {
    '0' <= c <= '9'
  }

  /** Membership in `"0123456789.-) "`, the argument of the `lstrip` call. */
  predicate IsMarkerChar(c: char) {
    IsAsciiDigit(c) || c == '.' || c == '-' || c == ')' || c == ' '
  }

  /** A stripped, non-blank line that `line[0].isdigit() or line.startswith("-")` selects. */
  predicate HasMarker(line: string) {
    |line| > 0 && (IsAsciiDigit(line[0]) || line[0] == '-')
  }

  /** The question a stripped, non-blank line yields. */
  function CleanLine(line: string): string {
    if HasMarker(line) then Strip(LStrip(line, IsMarkerChar)) else line
  }

  predicate IsBlank(raw: string) {
    Strip(raw) == ""
  }

  /** The loop over `lines`: skip blank lines, clean the others, keep their order. */
  function Collect(lines: seq<string>): seq<string>
    decreases |lines|
  {
    if |lines| == 0 then []
    else
      var line := Strip(lines[0]);
      if line == "" then Collect(lines[1..]) else [CleanLine(line)] + Collect(lines[1..])
  }

  /** The lines that are not blank, in their original order. */
  function NonBlank(lines: seq<string>): seq<string>
    decreases |lines|
  {
    if |lines| == 0 then []
    else if IsBlank(lines[0]) then NonBlank(lines[1..])
    else [lines[0]] + NonBlank(lines[1..])
  }

  /** Pointwise cleaning is kept when a line and its question are put in front. */
  lemma CleanedCons(line: string, nb: seq<string>, cs: seq<string>)
    requires |cs| == |nb|
    requires forall i :: 0 <= i < |nb| ==> cs[i] == CleanLine(Strip(nb[i]))
    ensures var nb', cs' := [line] + nb, [CleanLine(Strip(line))] + cs;
      forall i :: 0 <= i < |nb'| ==> cs'[i] == CleanLine(Strip(nb'[i]))
  {
    var nb', cs' := [line] + nb, [CleanLine(Strip(line))] + cs;
    forall i | 0 <= i < |nb'|
      ensures cs'[i] == CleanLine(Strip(nb'[i]))
    {
      if i > 0 {
        assert cs'[i] == cs[i - 1] && nb'[i] == nb[i - 1];
      }
    }
  }

  /** Every non-blank line yields exactly one question, in order; blank lines yield none. */
  lemma {:induction false} CollectIsCleanedNonBlank(lines: seq<string>)
    ensures |Collect(lines)| == |NonBlank(lines)|
    ensures forall i :: 0 <= i < |NonBlank(lines)| ==> Collect(lines)[i] == CleanLine(Strip(NonBlank(lines)[i]))
    decreases |lines|
  {
    if |lines| > 0 {
      var rest := lines[1..];
      CollectIsCleanedNonBlank(rest);
      if IsBlank(lines[0]) {
        assert Collect(lines) == Collect(rest);
        assert NonBlank(lines) == NonBlank(rest);
      } else {
        assert Collect(lines) == [CleanLine(Strip(lines[0]))] + Collect(rest);
        assert NonBlank(lines) == [lines[0]] + NonBlank(rest);
        CleanedCons(lines[0], NonBlank(rest), Collect(rest));
      }
    }
  }

  /** The lines of the reply, after `text.strip().splitlines()`. */
  function ReplyLines(text: string): seq<string> {
    SplitLines(Strip(text))
  }

  datatype CountMismatch = CountMismatch(expected: int, got: nat)

  /** The parsing tail of `generate_hypotheticals`: the questions of `text`, or the `ValueError` for a wrong count. */
  function ParseQuestions(text: string, k: int): (r: Result<seq<string>, CountMismatch>)
    ensures r.Ok? <==> |NonBlank(ReplyLines(text))| == k
    ensures r.Ok? ==> |r.value| == k
    ensures r.Ok? ==> forall i :: 0 <= i < |r.value| ==>
      r.value[i] == CleanLine(Strip(NonBlank(ReplyLines(text))[i]))
    ensures r.Err? ==> r.error == CountMismatch(k, |NonBlank(ReplyLines(text))|)
  {
    var lines := ReplyLines(text);
    CollectIsCleanedNonBlank(lines);
    var questions := Collect(lines);
    if |questions| != k then Err(CountMismatch(k, |questions|)) else Ok(questions)
  }

  /** `strip()` keeps a piece of its argument: `c` characters from position `b`. */
  lemma StripBounds(s: string) returns (b: nat, c: nat)
    ensures b + c <= |s| && Strip(s) == s[b..][..c]
  {
    var ls := LStrip(s, IsSpace);
    b, c := |s| - |ls|, |Strip(s)|;
  }

  /** The question a line yields is a piece of it, and a line without a marker is kept whole. */
  lemma CleanLineIsInfix(line: string)
    ensures exists i, j :: 0 <= i <= j <= |line| && CleanLine(line) == line[i..j]
    ensures !HasMarker(line) ==> CleanLine(line) == line
  {
    if HasMarker(line) {
      var l := LStrip(line, IsMarkerChar);
      var a := |line| - |l|;
      var b, c := StripBounds(l);
      SliceOfSuffix(line, a, b, c);
      assert CleanLine(line) == line[a + b..a + b + c];
    } else {
      assert CleanLine(line) == line[0..|line|];
    }
  }

  /**
   A stripped line whose first character is not one `lstrip` removes (a
   non-ASCII digit, say) is left as it is by the marker branch.
   */
  lemma NonAsciiLeadUnchanged(line: string)
    requires Strip(line) == line && |line| > 0 && !IsMarkerChar(line[0])
    ensures Strip(LStrip(line, IsMarkerChar)) == line
  {
  }

  lemma TwoLineReply(first: string, q: string)
    requires |first| > 0 && NoBreaks(first) && !IsSpace(first[0])
    requires IsPlainQuestion(q)
    ensures ReplyLines(JoinLines([first, q])) == [first, q]
  {
    var lines := [first, q];
    JoinLinesFirst(lines);
    JoinLinesLast(lines);
    StripUnchanged(JoinLines(lines));
    SplitJoin(lines);
  }

  /** A line holding only a number and a dot, such as "1.". */
  lemma MarkerOnlyLineIsEmpty(d: char)
    requires IsAsciiDigit(d)
    ensures Strip([d, '.']) == [d, '.'] && CleanLine([d, '.']) == ""
  {
    var m := [d, '.'];
    StripUnchanged(m);
    assert LStrip(m, IsMarkerChar) == "" by {
      assert m[1..][1..] == "";
    }
  }

  /**
   A marker alone is a question: a line such as "1." becomes the empty string
   and still counts toward `k`.
   */
  lemma MarkerOnlyLineCounts(d: char, q: string)
    requires IsAsciiDigit(d) && IsPlainQuestion(q)
    ensures ParseQuestions(JoinLines([[d, '.'], q]), 2) == Ok(["", q])
    ensures ParseQuestions(JoinLines([[d, '.'], q]), 1) == Err(CountMismatch(1, 2))
  {
    var text := JoinLines([[d, '.'], q]);
    TwoLineReply([d, '.'], q);
    MarkerOnlyLineIsEmpty(d);
    StripUnchanged(q);
    ParsePlainReply(text, ["", q], 2);
    ParsePlainReply(text, ["", q], 1);
  }

  /** The ASCII character of a decimal digit. */
  function DigitChar(d: nat): (c: char)
    requires d < 10
    ensures IsAsciiDigit(c)
  {
    "0123456789"[d]
  }

  /** `str(n)` for a natural number. */
  function Numeral(n: nat): (s: string)
    ensures |s| > 0
    ensures forall i :: 0 <= i < |s| ==> IsAsciiDigit(s[i])
  {
    if n < 10 then [DigitChar(n)] else Numeral(n / 10) + [DigitChar(n % 10)]
  }

  /** One entry of the numbered list the prompt asks for, "1. ...". */
  function NumberedLine(i: nat, q: string): string {
    Numeral(i + 1) + ". " + q
  }

  /** The reply the prompt asks for: the questions as a numbered list, one per line. */
  function NumberedList(qs: seq<string>): string {
    JoinLines(NumberedLines(qs))
  }

  function NumberedLines(qs: seq<string>): (lines: seq<string>)
    ensures |lines| == |qs|
    ensures forall i :: 0 <= i < |qs| ==> lines[i] == NumberedLine(i, qs[i])
  {
    seq(|qs|, i requires 0 <= i < |qs| => NumberedLine(i, qs[i]))
  }

  /** A question that survives the parser unchanged: one line, no surrounding blanks, no leading marker. */
  predicate IsPlainQuestion(q: string) {
    && |q| > 0
    && NoBreaks(q)
    && !IsMarkerChar(q[0])
    && !IsSpace(q[0])
    && !IsSpace(q[|q| - 1])
  }

  /** The prefix "n. " of a numbered line is made only of characters `lstrip` removes. */
  lemma NumberPrefixIsMarkers(n: nat)
    ensures forall j :: 0 <= j < |Numeral(n) + ". "| ==> IsMarkerChar((Numeral(n) + ". ")[j])
  {
    var num := Numeral(n);
    var pre := num + ". ";
    forall j | 0 <= j < |pre|
      ensures IsMarkerChar(pre[j])
    {
      if j < |num| {
        assert pre[j] == num[j];
      } else {
        assert pre[j] == ". "[j - |num|];
      }
    }
  }

  lemma NumberedLineShape(i: nat, q: string)
    requires IsPlainQuestion(q)
    ensures var line := NumberedLine(i, q);
      |line| > 0 && NoBreaks(line) && IsAsciiDigit(line[0]) && line[|line| - 1] == q[|q| - 1]
  {
    var num := Numeral(i + 1);
    var pre := num + ". ";
    var line := pre + q;
    assert line[0] == num[0];
    forall j | 0 <= j < |line|
      ensures !IsLineBreak(line[j])
    {
      if j < |pre| {
        NumberPrefixIsMarkers(i + 1);
        assert IsMarkerChar(pre[j]);
      } else {
        assert line[j] == q[j - |pre|];
      }
    }
  }

  lemma NumberedLineParses(i: nat, q: string)
    requires IsPlainQuestion(q)
    ensures var line := NumberedLine(i, q);
      && |line| > 0 && NoBreaks(line) && !IsSpace(line[0]) && !IsSpace(line[|line| - 1])
      && Strip(line) == line && CleanLine(line) == q
  {
    var line := NumberedLine(i, q);
    NumberedLineShape(i, q);
    StripUnchanged(line);
    NumberPrefixIsMarkers(i + 1);
    LStripSkipsPrefix(Numeral(i + 1) + ". ", q, IsMarkerChar);
    assert LStrip(q, IsMarkerChar) == q;
    StripUnchanged(q);
  }

  lemma {:induction false} CollectPlainLines(lines: seq<string>, qs: seq<string>)
    requires |lines| == |qs|
    requires forall i :: 0 <= i < |lines| ==> Strip(lines[i]) == lines[i] && |lines[i]| > 0
    requires forall i :: 0 <= i < |lines| ==> CleanLine(lines[i]) == qs[i]
    ensures Collect(lines) == qs
    ensures NonBlank(lines) == lines
    decreases |lines|
  {
    if |lines| > 0 {
      var rest, qrest := lines[1..], qs[1..];
      forall i | 0 <= i < |rest|
        ensures Strip(rest[i]) == rest[i] && |rest[i]| > 0 && CleanLine(rest[i]) == qrest[i]
      {
        assert rest[i] == lines[i + 1] && qrest[i] == qs[i + 1];
      }
      CollectPlainLines(rest, qrest);
      var line := lines[0];
      assert Strip(line) == line && |line| > 0 && CleanLine(line) == qs[0];
      assert Collect(lines) == [qs[0]] + Collect(rest);
      assert NonBlank(lines) == [line] + NonBlank(rest);
      HeadTail(qs);
      HeadTail(lines);
    }
  }

  /** A reply whose lines are all stripped and non-blank parses to the questions they clean to. */
  lemma ParsePlainReply(text: string, qs: seq<string>, k: int)
    requires var lines := ReplyLines(text);
      && |lines| == |qs|
      && (forall i :: 0 <= i < |lines| ==> Strip(lines[i]) == lines[i] && |lines[i]| > 0)
      && (forall i :: 0 <= i < |lines| ==> CleanLine(lines[i]) == qs[i])
    ensures ParseQuestions(text, k) == if |qs| == k then Ok(qs) else Err(CountMismatch(k, |qs|))
  {
    CollectPlainLines(ReplyLines(text), qs);
  }

  lemma NumberedListLines(qs: seq<string>)
    requires forall i :: 0 <= i < |qs| ==> IsPlainQuestion(qs[i])
    ensures ReplyLines(NumberedList(qs)) == NumberedLines(qs)
  {
    var lines := NumberedLines(qs);
    forall i | 0 <= i < |qs|
      ensures NoBreaks(lines[i]) && |lines[i]| > 0 && !IsSpace(lines[i][0]) && !IsSpace(lines[i][|lines[i]| - 1])
    {
      NumberedLineParses(i, qs[i]);
    }
    if |qs| > 0 {
      JoinLinesFirst(lines);
      JoinLinesLast(lines);
    }
    StripUnchanged(JoinLines(lines));
    SplitJoin(lines);
  }

  /**
   A reply in exactly the requested shape parses back to the questions it was
   written from, with the count check passing.
   */
  lemma NumberedListRoundTrip(qs: seq<string>)
    requires forall i :: 0 <= i < |qs| ==> IsPlainQuestion(qs[i])
    ensures ParseQuestions(NumberedList(qs), |qs|) == Ok(qs)
  {
    var lines := NumberedLines(qs);
    NumberedListLines(qs);
    forall i | 0 <= i < |qs|
      ensures |lines[i]| > 0 && Strip(lines[i]) == lines[i] && CleanLine(lines[i]) == qs[i]
    {
      NumberedLineParses(i, qs[i]);
    }
    CollectPlainLines(lines, qs);
  }
}

=== FILE: rag_service.dfy ===
/**
 The retrieval-index side (agent/rag_service.py): the example formatter and
 the upload of one text document to the ViaRAG client. The temporary file's
 name and the client's reply are oracles; the file system and the client
 are recorded as an ordered list of effects.
 */
module RagService {
  import opened Common

  /** The single metadata key sent with every document. */
  const GifPathKey: string := "gif_path"

  /** `default_format_fn`: the path, a colon and a newline, then the summary. */
  function DefaultFormat(filePath: string, summary: string): (r: string)
    ensures |r| == |filePath| + 2 + |summary|
    ensures r[..|filePath|] == filePath
    ensures r[|filePath|..|filePath| + 2] == ":\n"
    ensures r[|filePath| + 2..] == summary
  {
    filePath + ":\n" + summary
  }

  function IndexOfNewline(s: string): (i: nat)
    ensures i <= |s|
    ensures forall j :: 0 <= j < i ==> s[j] != '\n'
    ensures i < |s| ==> s[i] == '\n'
  {
    if |s| == 0 || s[0] == '\n' then 0 else 1 + IndexOfNewline(s[1..])
  }

  /**
   For paths without a newline the formatter loses nothing: path and summary
   can be read back from the formatted text.
   */
  lemma DefaultFormatInjective(p1: string, s1: string, p2: string, s2: string)
    requires forall j :: 0 <= j < |p1| ==> p1[j] != '\n'
    requires forall j :: 0 <= j < |p2| ==> p2[j] != '\n'
    requires DefaultFormat(p1, s1) == DefaultFormat(p2, s2)
    ensures p1 == p2 && s1 == s2
  {
    var r := DefaultFormat(p1, s1);
    assert r[|p1| + 1] == '\n';
    assert DefaultFormat(p2, s2)[|p2| + 1] == '\n';
    var i := IndexOfNewline(r);
    assert i == |p1| + 1;
    assert i == |p2| + 1;
  }

  datatype Effect =
    | WriteTemp(path: string, text: string)   // NamedTemporaryFile(...).write
    | UploadDocument(path: string, metadata: map<string, string>, chunkingConfig: Option<string>)
    | RemoveTemp(path: string)                 // os.remove in the finally block

  /** What `client.upload_document` did: returned a response, or raised. */
  datatype ClientOutcome = Responded(response: string) | ClientRaised

  datatype Upload = Upload(effects: seq<Effect>, result: Result<string, ClientOutcome>)

  /** `u` uploads the temp file that `w` wrote. */
  predicate WriteThenUpload(w: Effect, u: Effect) {
    w.WriteTemp? && u.UploadDocument? && u.path == w.path
  }

  /** The text of the document that was handed to the client. */
  function UploadedText(effects: seq<Effect>): Option<string> {
    if |effects| >= 2 && WriteThenUpload(effects[0], effects[1]) then Some(effects[0].text) else None
  }

  /** The temp file is written, uploaded, and removed last, and nothing else is touched. */
  predicate CleansUp(effects: seq<Effect>) {
    && |effects| == 3
    && WriteThenUpload(effects[0], effects[1])
    && effects[2] == RemoveTemp(effects[0].path)
  }

  /**
   `upload_single_gif_summary`: the document is the summary itself, tagged
   with the GIF's storage path; the temp file is removed whether the client
   returns or raises, and the client's answer is passed through.
   */
  function UploadSingleGifSummary(filePath: string, summary: string, tempPath: string, client: ClientOutcome)
    : (u: Upload)
    ensures CleansUp(u.effects)
    ensures UploadedText(u.effects) == Some(summary)
    ensures u.effects[1].metadata.Keys == {GifPathKey} && u.effects[1].metadata[GifPathKey] == filePath
    ensures u.effects[1].chunkingConfig.None?
    ensures u.result.Ok? <==> client.Responded?
    ensures u.result.Ok? ==> u.result.value == client.response
  {
    var attempt := [WriteTemp(tempPath, summary), UploadDocument(tempPath, map[GifPathKey := filePath], None)];
    var effects := attempt + [RemoveTemp(tempPath)];
    match client
    case Responded(response) => Upload(effects, Ok(response))
    case ClientRaised => Upload(effects, Err(ClientRaised))
  }

  /** The document is the bare summary: the formatter is not applied to it. */
  lemma UploadIsNotFormatted(filePath: string, summary: string, tempPath: string, client: ClientOutcome)
    ensures UploadedText(UploadSingleGifSummary(filePath, summary, tempPath, client).effects)
      != Some(DefaultFormat(filePath, summary))
  {
    assert |DefaultFormat(filePath, summary)| > |summary|;
  }
}

=== FILE: storage.dfy ===
/**
 The upload pipeline of agent/storage.py: frame and timing rules of the GIF
 re-encoder, the 50 MiB size guard, the object-storage upload and its URLs,
 the metadata insert, the indexing of paraphrase questions, and the stage
 sequencing of `send_gif_to_supabase_pipeline`.

 Every collaborator of the pipeline (the language model, the compressor's
 output, `requests.post`, the Supabase table client, the ViaRAG client,
 `uuid4`, `utcnow`, temp-file names) is an oracle value in `Collaborators`;
 what the pipeline does to the outside world is returned as an ordered list
 of `Effect`s next to its result. PIL's decoding and resizing are oracle
 parameters of `CompressLayout`.
 */
module Storage {
  import opened Common
  import Questions
  import RagService

  /** The storage upload limit, in MiB. */
  const MaxMb: nat := 50
  const MaxUploadBytes: nat := MaxMb * 1024 * 1024
  const BucketName: string := "gifs"

  /** The defaults of `compress_gif_bytes`, the only values it is called with. */
  const DefaultMaxWidth: nat := 400
  const DefaultFps: int := 10

  // ---------------------------------------------------------------------------
  // compress_gif_bytes: which frames come out, how wide, and for how long

  datatype Size = Size(width: nat, height: nat)

  /** The frames handed to `save`, the per-frame `duration` and the `loop` count. */
  datatype GifLayout = GifLayout(frames: seq<Size>, durationMs: nat, loop: nat)

  datatype CompressError =
    | UnreadableImage        // Image.open raised
    | ZeroFps                // 1000 / fps raised ZeroDivisionError
    | ResizeRaised(at: nat)  // frame.resize raised for this frame
    | NoFrames               // frames[0] on an empty list

  /** `int(a / b)`: true division truncated toward zero (exact for these operands). */
  function TruncDiv(a: nat, b: int): int
    requires b != 0
  {
    if b > 0 then a / b else -(a / -b)
  }

  /** `max(1, int(1000 / fps))`, the per-frame duration in milliseconds. */
  function FrameDuration(fps: int): (r: Result<nat, CompressError>)
    ensures r.Err? <==> fps == 0
    ensures r.Err? ==> r.error == ZeroFps
    ensures r.Ok? ==> r.value >= 1
    ensures 0 < fps <= 1000 ==> r.value * fps <= 1000 < (r.value + 1) * fps
    ensures fps > 1000 || fps < 0 ==> r.value == 1
  {
    if fps == 0 then Err(ZeroFps)
    else
      var d := TruncDiv(1000, fps);
      Ok(if d < 1 then 1 else d)
  }

  /** Every frame wider than `maxWidth` among the first `n` has a height to be resized to. */
  predicate ResizesUpTo(frames: seq<Size>, maxWidth: nat, resize: Size -> Option<nat>, n: nat)
    requires n <= |frames|
  {
    forall j :: 0 <= j < n && frames[j].width > maxWidth ==> resize(frames[j]).Some?
  }

  /** Frame `k` is the first wide frame whose resize raised. */
  predicate FirstResizeFailure(frames: seq<Size>, maxWidth: nat, resize: Size -> Option<nat>, k: nat) {
    && k < |frames|
    && frames[k].width > maxWidth && resize(frames[k]).None?
    && ResizesUpTo(frames, maxWidth, resize, k)
  }

  /**
   `out` is `frames` with every frame wider than `maxWidth` made exactly
   `maxWidth` wide and as high as `resize` says, and every other frame kept.
   */
  predicate ResizedEach(frames: seq<Size>, maxWidth: nat, resize: Size -> Option<nat>, out: seq<Size>) {
    && |out| == |frames|
    && (forall i :: 0 <= i < |frames| && frames[i].width <= maxWidth ==> out[i] == frames[i])
    && (forall i :: 0 <= i < |frames| && frames[i].width > maxWidth ==>
          resize(frames[i]).Some? && out[i] == Size(maxWidth, resize(frames[i]).value))
  }

  /** The resize of the first frame, followed by the resize of the rest. */
  lemma ResizedEachStep(frames: seq<Size>, maxWidth: nat, resize: Size -> Option<nat>, head: Size, rest: seq<Size>)
    requires |frames| > 0
    requires frames[0].width <= maxWidth ==> head == frames[0]
    requires frames[0].width > maxWidth ==> resize(frames[0]).Some? && head == Size(maxWidth, resize(frames[0]).value)
    requires ResizedEach(frames[1..], maxWidth, resize, rest)
    ensures ResizedEach(frames, maxWidth, resize, [head] + rest)
    ensures ResizesUpTo(frames, maxWidth, resize, |frames|)
  {
    var out := [head] + rest;
    forall i | 1 <= i < |frames|
      ensures frames[i] == frames[1..][i - 1] && out[i] == rest[i - 1]
    {
    }
  }

  /** A first frame that resized fine moves the first failure of the rest one place on. */
  lemma FirstResizeFailureStep(frames: seq<Size>, maxWidth: nat, resize: Size -> Option<nat>, k: nat)
    requires |frames| > 0 && (frames[0].width <= maxWidth || resize(frames[0]).Some?)
    requires FirstResizeFailure(frames[1..], maxWidth, resize, k)
    ensures FirstResizeFailure(frames, maxWidth, resize, k + 1)
  {
    forall j | 1 <= j <= k
      ensures frames[j] == frames[1..][j - 1]
    {
    }
  }

  /**
   The resize loop: one output frame per input frame, in order. A frame wider
   than `maxWidth` becomes exactly `maxWidth` wide; its height,
   `int(height * (max_width / width))` in Python floats, is the oracle
   `resize`, which is `None` when PIL's `resize` raised. Any other frame is
   kept. `at` is the position of `frames[0]` in the whole image.
   */
  function ResizeFrames(frames: seq<Size>, maxWidth: nat, resize: Size -> Option<nat>, at: nat)
    : (r: Result<seq<Size>, CompressError>)
    ensures r.Ok? <==> ResizesUpTo(frames, maxWidth, resize, |frames|)
    ensures r.Ok? ==> ResizedEach(frames, maxWidth, resize, r.value)
    ensures r.Err? ==> (
      && r.error.ResizeRaised? && at <= r.error.at
      && FirstResizeFailure(frames, maxWidth, resize, r.error.at - at))
    decreases |frames|
  {
    if |frames| == 0 then Ok([])
    else
      var f := frames[0];
      var head: Result<Size, CompressError> :=
        if f.width <= maxWidth then Ok(f)
        else match resize(f)
          case None => Err(ResizeRaised(at))
          case Some(h) => Ok(Size(maxWidth, h));
      if head.Err? then Err(head.error)
      else
        var rest := ResizeFrames(frames[1..], maxWidth, resize, at + 1);
        if rest.Err? then
          FirstResizeFailureStep(frames, maxWidth, resize, rest.error.at - (at + 1));
          Err(rest.error)
        else
          ResizedEachStep(frames, maxWidth, resize, head.value, rest.value);
          Ok([head.value] + rest.value)
  }

  /** `compress_gif_bytes`, up to the pixels and the encoded bytes. */
  function CompressLayout(decoded: Option<seq<Size>>, maxWidth: nat, fps: int, resize: Size -> Option<nat>)
    : (r: Result<GifLayout, CompressError>)
    ensures decoded.None? ==> r == Err(UnreadableImage)
    ensures decoded.Some? && fps == 0 ==> r == Err(ZeroFps)
    ensures r.Ok? <==> (
      && decoded.Some? && fps != 0 && |decoded.value| > 0
      && forall i :: 0 <= i < |decoded.value| && decoded.value[i].width > maxWidth ==> resize(decoded.value[i]).Some?)
    ensures r.Ok? ==> (
      && |r.value.frames| == |decoded.value|
      && (forall i :: 0 <= i < |decoded.value| && decoded.value[i].width <= maxWidth ==> r.value.frames[i] == decoded.value[i])
      && (forall i :: 0 <= i < |decoded.value| && decoded.value[i].width > maxWidth ==>
            r.value.frames[i] == Size(maxWidth, resize(decoded.value[i]).value)))
    ensures r.Ok? ==> r.value.durationMs == FrameDuration(fps).value && r.value.loop == 0
  {
    match decoded
    case None => Err(UnreadableImage)
    case Some(frames) =>
      var duration :- FrameDuration(fps);
      var out :- ResizeFrames(frames, maxWidth, resize, 0);
      if |out| == 0 then Err(NoFrames) else Ok(GifLayout(out, duration, 0))
  }

  /**
   With the defaults the pipeline's helper is called with, every frame lasts
   100 ms and no frame is wider than 400 pixels.
   */
  lemma DefaultLayout(decoded: Option<seq<Size>>, resize: Size -> Option<nat>)
    ensures var r := CompressLayout(decoded, DefaultMaxWidth, DefaultFps, resize);
      r.Ok? ==> (
        && r.value.durationMs == 100
        && forall i :: 0 <= i < |r.value.frames| ==> r.value.frames[i].width <= DefaultMaxWidth)
  {
  }

  // ---------------------------------------------------------------------------
  // Effects, errors and oracles of the pipeline

  datatype MetadataRow = MetadataRow(filePath: string, publicUrl: string, summary: string, createdAt: string)

  datatype Effect =
    | DescribeGif(gif: Bytes)              // summarize_gif: llm.invoke on the GIF
    | CompressGif(gif: Bytes)              // compress_gif_bytes
    | PostObject(url: string, body: Bytes) // requests.post to the storage API
    | InsertMetadata(row: MetadataRow)     // gif_metadata insert
    | AskQuestions(summary: string, k: int) // generate_hypotheticals: llm.invoke
    | Index(step: RagService.Effect)       // upload_single_gif_summary

  /** What `requests.post` did. */
  datatype HttpOutcome = HttpStatus(code: int) | HttpRaised

  /** What the table insert did: returned `len(response.data)` rows, or raised. */
  datatype InsertOutcome = InsertReturned(rows: nat) | InsertCallRaised

  datatype PipelineError =
    | DescribeRaised
    | CompressRaised
    | PostRaised
    | UploadFailed(status: int)
    | InsertRaised
    | InsertReturnedNoData
    | AskRaised
    | WrongQuestionCount(expected: int, got: nat)
    | IndexRaised(question: nat)

  /** The effects a stage performed, and what it returned or raised. */
  datatype Staged<T> = Staged(effects: seq<Effect>, result: Result<T, PipelineError>)

  /** Pipeline stages: 0 summarise, 1 upload, 2 store metadata, 3 index. */
  function StageOf(e: Effect): nat {
    match e
    case DescribeGif(_) => 0
    case CompressGif(_) => 1
    case PostObject(_, _) => 1
    case InsertMetadata(_) => 2
    case AskQuestions(_, _) => 3
    case Index(_) => 3
  }

  function ErrorStage(err: PipelineError): nat {
    match err
    case DescribeRaised => 0
    case CompressRaised => 1
    case PostRaised => 1
    case UploadFailed(_) => 1
    case InsertRaised => 2
    case InsertReturnedNoData => 2
    case AskRaised => 3
    case WrongQuestionCount(_, _) => 3
    case IndexRaised(_) => 3
  }

  /** Which stage raises which error. */
  lemma ErrorStages(err: PipelineError)
    ensures err.DescribeRaised? ==> ErrorStage(err) == 0
    ensures err.CompressRaised? || err.PostRaised? || err.UploadFailed? ==> ErrorStage(err) == 1
    ensures err.InsertRaised? || err.InsertReturnedNoData? ==> ErrorStage(err) == 2
    ensures err.AskRaised? || err.WrongQuestionCount? || err.IndexRaised? ==> ErrorStage(err) == 3
  {
  }

  predicate InStages(effects: seq<Effect>, lo: nat, hi: nat) {
    forall i :: 0 <= i < |effects| ==> lo <= StageOf(effects[i]) <= hi
  }

  /** Every metadata row and every indexed document refers to `path`. */
  predicate UsesPath(effects: seq<Effect>, path: string) {
    && (forall i :: 0 <= i < |effects| && effects[i].InsertMetadata? ==> effects[i].row.filePath == path)
    && (forall i :: 0 <= i < |effects| && effects[i].Index? && effects[i].step.UploadDocument? ==>
          effects[i].step.metadata == map[RagService.GifPathKey := path])
  }

  /**
   The effects start with a temp file written for indexing and, right after
   it, the upload of that same file.
   */
  predicate UploadsFirst(effects: seq<Effect>) {
    && |effects| >= 2
    && effects[0].Index? && effects[1].Index?
    && RagService.WriteThenUpload(effects[0].step, effects[1].step)
  }

  /**
   The texts of the documents handed to the index, in order: a text counts
   only when its temp file was written and then uploaded.
   */
  function IndexedTexts(effects: seq<Effect>): seq<string>
    decreases |effects|
  {
    if |effects| == 0 then []
    else (if UploadsFirst(effects) then [effects[0].step.text] else []) + IndexedTexts(effects[1..])
  }

  /** The effects do not end with a temp file still waiting for its upload. */
  predicate EndsSettled(effects: seq<Effect>) {
    |effects| == 0 || !(effects[|effects| - 1].Index? && effects[|effects| - 1].step.WriteTemp?)
  }

  lemma {:induction false} IndexedTextsAppend(a: seq<Effect>, b: seq<Effect>)
    requires EndsSettled(a)
    ensures IndexedTexts(a + b) == IndexedTexts(a) + IndexedTexts(b)
    decreases |a|
  {
    if |a| > 0 {
      assert (a + b)[1..] == a[1..] + b;
      assert UploadsFirst(a + b) == UploadsFirst(a) by {
        if |a| >= 2 {
          assert (a + b)[0] == a[0] && (a + b)[1] == a[1];
        }
      }
      IndexedTextsAppend(a[1..], b);
    } else {
      assert a + b == b;
    }
  }

  predicate IsUpload(e: Effect) {
    e.Index? && e.step.UploadDocument?
  }

  /** Every upload for indexing comes right after the write of the temp file it uploads. */
  predicate UploadsPaired(effects: seq<Effect>) {
    forall i :: 0 <= i < |effects| && IsUpload(effects[i]) ==>
      i > 0 && effects[i - 1].Index? && RagService.WriteThenUpload(effects[i - 1].step, effects[i].step)
  }

  /** The number of documents uploaded for indexing. */
  function UploadCount(effects: seq<Effect>): nat
    decreases |effects|
  {
    if |effects| == 0 then 0
    else (if IsUpload(effects[0]) then 1 else 0) + UploadCount(effects[1..])
  }

  lemma UploadsPairedAppend(a: seq<Effect>, b: seq<Effect>)
    requires UploadsPaired(a) && UploadsPaired(b)
    ensures UploadsPaired(a + b)
  {
    forall i | 0 <= i < |a + b|
      ensures (a + b)[i] == if i < |a| then a[i] else b[i - |a|]
    {
    }
  }

  /** Counting from a position whose predecessor, if any, is not looked at. */
  lemma {:induction false} UploadCountFromHead(effects: seq<Effect>)
    requires forall i :: 1 <= i < |effects| && IsUpload(effects[i]) ==>
      effects[i - 1].Index? && RagService.WriteThenUpload(effects[i - 1].step, effects[i].step)
    ensures UploadCount(effects) == |IndexedTexts(effects)| + (if |effects| > 0 && IsUpload(effects[0]) then 1 else 0)
    decreases |effects|
  {
    if |effects| > 0 {
      var rest := effects[1..];
      forall i | 1 <= i < |rest| && IsUpload(rest[i])
        ensures rest[i - 1].Index? && RagService.WriteThenUpload(rest[i - 1].step, rest[i].step)
      {
        assert rest[i] == effects[i + 1] && rest[i - 1] == effects[i];
      }
      UploadCountFromHead(rest);
      if |effects| >= 2 {
        assert rest[0] == effects[1];
        assert IsUpload(effects[1]) == UploadsFirst(effects);
      }
    }
  }

  /** When every upload is paired with its write, the uploads are exactly the indexed texts. */
  lemma PairedUploadsCounted(effects: seq<Effect>)
    requires UploadsPaired(effects)
    ensures UploadCount(effects) == |IndexedTexts(effects)|
  {
    UploadCountFromHead(effects);
  }

  lemma EndsSettledAppend(a: seq<Effect>, b: seq<Effect>)
    requires EndsSettled(a) && EndsSettled(b)
    ensures EndsSettled(a + b)
  {
    if |b| > 0 {
      assert (a + b)[|a + b| - 1] == b[|b| - 1];
    } else {
      assert a + b == a;
    }
  }

  /** The stages before indexing hand nothing to the index and leave nothing half done. */
  lemma EarlyStagesIndexNothing(effects: seq<Effect>, lo: nat, hi: nat)
    requires hi < 3 && InStages(effects, lo, hi)
    ensures IndexedTexts(effects) == [] && EndsSettled(effects) && UploadsPaired(effects)
  {
    NoIndexBeforeStage3(effects);
    if |effects| > 0 {
      assert StageOf(effects[|effects| - 1]) <= hi;
    }
  }

  /** Only the effects of stage 3 put anything into the index. */
  lemma IndexingComesLast(e0: seq<Effect>, e1: seq<Effect>, e2: seq<Effect>, e3: seq<Effect>)
    requires InStages(e0, 0, 0) && InStages(e1, 1, 1) && InStages(e2, 2, 2)
    ensures IndexedTexts(e0) == [] && IndexedTexts(e0 + e1) == [] && IndexedTexts(e0 + e1 + e2) == []
    ensures IndexedTexts(e0 + e1 + e2 + e3) == IndexedTexts(e3)
  {
    EarlyStagesIndexNothing(e0, 0, 0);
    EarlyStagesIndexNothing(e1, 1, 1);
    EarlyStagesIndexNothing(e2, 2, 2);
    IndexedTextsAppend(e0, e1);
    EndsSettledAppend(e0, e1);
    IndexedTextsAppend(e0 + e1, e2);
    EndsSettledAppend(e0 + e1, e2);
    IndexedTextsAppend(e0 + e1 + e2, e3);
  }

  /** Stages 0 to 2 upload nothing for indexing, so pairing of the uploads rests on stage 3. */
  lemma UploadsComeLast(e0: seq<Effect>, e1: seq<Effect>, e2: seq<Effect>, e3: seq<Effect>)
    requires InStages(e0, 0, 0) && InStages(e1, 1, 1) && InStages(e2, 2, 2) && UploadsPaired(e3)
    ensures UploadsPaired(e0) && UploadsPaired(e0 + e1) && UploadsPaired(e0 + e1 + e2)
    ensures UploadsPaired(e0 + e1 + e2 + e3)
  {
    EarlyStagesIndexNothing(e0, 0, 0);
    EarlyStagesIndexNothing(e1, 1, 1);
    EarlyStagesIndexNothing(e2, 2, 2);
    UploadsPairedAppend(e0, e1);
    UploadsPairedAppend(e0 + e1, e2);
    UploadsPairedAppend(e0 + e1 + e2, e3);
  }

  lemma UsesPathAppend(a: seq<Effect>, b: seq<Effect>, path: string)
    requires UsesPath(a, path) && UsesPath(b, path)
    ensures UsesPath(a + b, path)
  {
    forall i | 0 <= i < |a + b|
      ensures (a + b)[i] == if i < |a| then a[i] else b[i - |a|]
    {
    }
  }

  lemma InStagesAppend(a: seq<Effect>, b: seq<Effect>, lo: nat, hi: nat)
    requires InStages(a, lo, hi) && InStages(b, lo, hi)
    ensures InStages(a + b, lo, hi)
  {
    forall i | 0 <= i < |a + b|
      ensures (a + b)[i] == if i < |a| then a[i] else b[i - |a|]
    {
    }
  }

  // ---------------------------------------------------------------------------
  // The stages

  /** `summarize_gif`: one model call on the bytes it is given. */
  function SummarizeGif(gif: Bytes, description: Option<string>): (s: Staged<string>)
    ensures s.effects == [DescribeGif(gif)] && InStages(s.effects, 0, 0)
    ensures s.result.Ok? <==> description.Some?
    ensures s.result.Ok? ==> s.result.value == description.value
    ensures s.result.Err? ==> s.result.error == DescribeRaised
  {
    match description
    case None => Staged([DescribeGif(gif)], Err(DescribeRaised))
    case Some(text) => Staged([DescribeGif(gif)], Ok(text))
  }

  /** The object the GIF is posted to. */
  function UploadUrl(supabaseUrl: string, fileId: string): string {
    supabaseUrl + "/storage/v1/object/" + BucketName + "/" + fileId
  }

  /** The public address returned for the uploaded object. */
  function PublicUrl(supabaseUrl: string, fileId: string): string {
    supabaseUrl + "/storage/v1/object/public/" + BucketName + "/" + fileId
  }

  /** The public address is the upload address with "public/" inserted after "/storage/v1/object/". */
  lemma PublicUrlInsertsPublic(supabaseUrl: string, fileId: string)
    ensures var u := UploadUrl(supabaseUrl, fileId);
      var k := |supabaseUrl + "/storage/v1/object/"|;
      PublicUrl(supabaseUrl, fileId) == u[..k] + "public/" + u[k..]
  {
    var prefix := supabaseUrl + "/storage/v1/object/";
    var tail := BucketName + "/" + fileId;
    assert UploadUrl(supabaseUrl, fileId) == prefix + tail;
    assert PublicUrl(supabaseUrl, fileId) == prefix + "public/" + tail;
    assert (prefix + tail)[..|prefix|] == prefix;
    assert (prefix + tail)[|prefix|..] == tail;
  }

  /** Only 200 and 201 count as a successful upload. */
  predicate UploadAccepted(post: HttpOutcome) {
    post.HttpStatus? && (post.code == 200 || post.code == 201)
  }

  /**
   `upload_gif_to_supabase`: compress once when the GIF is strictly larger
   than 50 MiB, then post whatever that produced without checking its size
   again.
   */
  function UploadGif(supabaseUrl: string, gif: Bytes, fileId: string, compressed: Option<Bytes>, post: HttpOutcome)
    : (s: Staged<string>)
    ensures |gif| <= MaxUploadBytes ==> s.effects == [PostObject(UploadUrl(supabaseUrl, fileId), gif)]
    ensures |gif| > MaxUploadBytes && compressed.Some? ==>
      s.effects == [CompressGif(gif), PostObject(UploadUrl(supabaseUrl, fileId), compressed.value)]
    ensures |gif| > MaxUploadBytes && compressed.None? ==> s == Staged([CompressGif(gif)], Err(CompressRaised))
    ensures s.result.Ok? <==> (|gif| <= MaxUploadBytes || compressed.Some?) && UploadAccepted(post)
    ensures s.result.Ok? ==> s.result.value == PublicUrl(supabaseUrl, fileId)
    ensures s.result.Err? && !s.result.error.CompressRaised? ==>
      s.result.error == (if post.HttpRaised? then PostRaised else UploadFailed(post.code))
    ensures |s.effects| > 0 && InStages(s.effects, 1, 1)
    ensures s.result.Err? ==> s.result.error.CompressRaised? || s.result.error.PostRaised? || s.result.error.UploadFailed?
  {
    var over := |gif| > MaxUploadBytes;
    if over && compressed.None? then Staged([CompressGif(gif)], Err(CompressRaised))
    else
      var body := if over then compressed.value else gif;
      var effects := (if over then [CompressGif(gif)] else []) + [PostObject(UploadUrl(supabaseUrl, fileId), body)];
      match post
      case HttpRaised => Staged(effects, Err(PostRaised))
      case HttpStatus(code) =>
        if code == 200 || code == 201 then Staged(effects, Ok(PublicUrl(supabaseUrl, fileId)))
        else Staged(effects, Err(UploadFailed(code)))
  }

  /** Compression happens exactly when the GIF is strictly over the limit, and at most once. */
  lemma CompressOnlyWhenOver(supabaseUrl: string, gif: Bytes, fileId: string, compressed: Option<Bytes>, post: HttpOutcome)
    ensures var s := UploadGif(supabaseUrl, gif, fileId, compressed, post);
      && (CompressGif(gif) in s.effects <==> |gif| > MaxUploadBytes)
      && (forall i :: 0 < i < |s.effects| ==> !s.effects[i].CompressGif?)
  {
    var s := UploadGif(supabaseUrl, gif, fileId, compressed, post);
    if |gif| > MaxUploadBytes {
      assert s.effects[0] == CompressGif(gif);
    } else {
      assert s.effects == [PostObject(UploadUrl(supabaseUrl, fileId), gif)];
    }
  }

  /** `store_metadata`: one insert; an empty `response.data` raises. */
  function StoreMetadata(row: MetadataRow, insert: InsertOutcome): (s: Staged<()>)
    ensures s.effects == [InsertMetadata(row)] && InStages(s.effects, 2, 2)
    ensures s.result.Ok? <==> insert.InsertReturned? && insert.rows > 0
    ensures s.result.Err? ==> s.result.error == (if insert.InsertCallRaised? then InsertRaised else InsertReturnedNoData)
  {
    match insert
    case InsertCallRaised => Staged([InsertMetadata(row)], Err(InsertRaised))
    case InsertReturned(rows) =>
      if rows == 0 then Staged([InsertMetadata(row)], Err(InsertReturnedNoData))
      else Staged([InsertMetadata(row)], Ok(()))
  }

  /** `generate_hypotheticals`: one model call, then the parser of the reply. */
  function GenerateHypotheticals(summary: string, k: int, reply: Option<string>): (s: Staged<seq<string>>)
    ensures s.effects == [AskQuestions(summary, k)]
    ensures s.result.Ok? <==> reply.Some? && Questions.ParseQuestions(reply.value, k).Ok?
    ensures s.result.Ok? ==> s.result.value == Questions.ParseQuestions(reply.value, k).value && |s.result.value| == k
    ensures s.result.Err? ==> s.result.error.AskRaised? || s.result.error.WrongQuestionCount?
    ensures reply.None? ==> s.result == Err(AskRaised)
    ensures reply.Some? && Questions.ParseQuestions(reply.value, k).Err? ==>
      s.result == Err(WrongQuestionCount(k, |Questions.NonBlank(Questions.ReplyLines(reply.value))|))
  {
    match reply
    case None => Staged([AskQuestions(summary, k)], Err(AskRaised))
    case Some(text) =>
      match Questions.ParseQuestions(text, k)
      case Ok(qs) => Staged([AskQuestions(summary, k)], Ok(qs))
      case Err(mismatch) =>
        Staged([AskQuestions(summary, k)], Err(WrongQuestionCount(mismatch.expected, mismatch.got)))
  }

  function Wrap(steps: seq<RagService.Effect>): (es: seq<Effect>)
    ensures |es| == |steps|
    ensures forall i :: 0 <= i < |steps| ==> es[i] == Index(steps[i])
  {
    seq(|steps|, i requires 0 <= i < |steps| => Index(steps[i]))
  }

  /** One `upload_single_gif_summary` call, seen from the pipeline. */
  lemma WrappedUpload(filePath: string, q: string, tempPath: string, client: RagService.ClientOutcome)
    ensures var es := Wrap(RagService.UploadSingleGifSummary(filePath, q, tempPath, client).effects);
      && IndexedTexts(es) == [q] && UsesPath(es, filePath) && InStages(es, 3, 3)
      && EndsSettled(es) && UploadsPaired(es)
  {
    var u := RagService.UploadSingleGifSummary(filePath, q, tempPath, client);
    var es := Wrap(u.effects);
    assert es[1..][1..][1..] == [];
    assert IndexedTexts(es[1..][1..]) == [];
    assert IndexedTexts(es[1..]) == [];
  }

  /**
   What indexing the questions from `i` on left behind: it succeeded exactly
   when every upload returned, and then uploaded every question in order;
   otherwise it stopped at the first upload that raised, after uploading that
   question and the ones before it.
   */
  predicate IndexedFrom(qs: seq<string>, i: nat, client: nat -> RagService.ClientOutcome,
                        effects: seq<Effect>, result: Result<(), PipelineError>)
    requires i <= |qs|
  {
    && (result.Ok? <==> forall j :: i <= j < |qs| ==> client(j).Responded?)
    && (result.Ok? ==> IndexedTexts(effects) == qs[i..])
    && (result.Err? ==> (
          && result.error.IndexRaised?
          && i <= result.error.question < |qs|
          && client(result.error.question).ClientRaised?
          && (forall j :: i <= j < result.error.question ==> client(j).Responded?)
          && IndexedTexts(effects) == qs[i..result.error.question + 1]))
  }

  /** An upload that returned, followed by the rest of the loop. */
  lemma IndexedFromStep(qs: seq<string>, i: nat, client: nat -> RagService.ClientOutcome,
                        here: seq<Effect>, effects: seq<Effect>, result: Result<(), PipelineError>)
    requires i < |qs| && client(i).Responded? && IndexedTexts(here) == [qs[i]] && EndsSettled(here)
    requires IndexedFrom(qs, i + 1, client, effects, result)
    ensures IndexedFrom(qs, i, client, here + effects, result)
  {
    IndexedTextsAppend(here, effects);
    if result.Err? {
      assert qs[i..result.error.question + 1] == [qs[i]] + qs[i + 1..result.error.question + 1];
    } else {
      assert qs[i..] == [qs[i]] + qs[i + 1..];
    }
  }

  /**
   The loop of `add_to_vector_store` from question `i` on: one upload per
   question, in order, all tagged with `filePath`, stopping at the first
   upload that raises.
   */
  function IndexFrom(filePath: string, qs: seq<string>, i: nat, tempPath: nat -> string,
                     client: nat -> RagService.ClientOutcome): (s: Staged<()>)
    requires i <= |qs|
    ensures InStages(s.effects, 3, 3) && UsesPath(s.effects, filePath) && EndsSettled(s.effects)
    ensures UploadsPaired(s.effects)
    ensures IndexedFrom(qs, i, client, s.effects, s.result)
    decreases |qs| - i
  {
    if i == |qs| then Staged([], Ok(()))
    else
      var u := RagService.UploadSingleGifSummary(filePath, qs[i], tempPath(i), client(i));
      var here := Wrap(u.effects);
      WrappedUpload(filePath, qs[i], tempPath(i), client(i));
      if u.result.Err? then
        assert qs[i..i + 1] == [qs[i]];
        Staged(here, Err(IndexRaised(i)))
      else
        var rest := IndexFrom(filePath, qs, i + 1, tempPath, client);
        IndexedFromStep(qs, i, client, here, rest.effects, rest.result);
        UsesPathAppend(here, rest.effects, filePath);
        InStagesAppend(here, rest.effects, 3, 3);
        EndsSettledAppend(here, rest.effects);
        UploadsPairedAppend(here, rest.effects);
        Staged(here + rest.effects, rest.result)
  }

  /** The model's reply is there and holds exactly `k` questions. */
  predicate RepliedWithQuestions(reply: Option<string>, k: int) {
    reply.Some? && Questions.ParseQuestions(reply.value, k).Ok?
  }

  /** The first `n` indexing uploads all returned. */
  predicate ClientAccepts(client: nat -> RagService.ClientOutcome, n: nat) {
    forall j: nat :: j < n ==> client(j).Responded?
  }

  /**
   `add_to_vector_store`: ask for the default number of questions; if the
   reply parses, upload each question in parser order.
   */
  function AddToVectorStore(filePath: string, summary: string, reply: Option<string>,
                            tempPath: nat -> string, client: nat -> RagService.ClientOutcome): (s: Staged<()>)
    ensures |s.effects| > 0 && s.effects[0] == AskQuestions(summary, Questions.DefaultCount)
    ensures InStages(s.effects, 3, 3) && UsesPath(s.effects, filePath)
    ensures s.result.Ok? <==>
      RepliedWithQuestions(reply, Questions.DefaultCount) && ClientAccepts(client, Questions.DefaultCount)
    ensures s.result.Ok? ==>
      IndexedTexts(s.effects) == Questions.ParseQuestions(reply.value, Questions.DefaultCount).value
    ensures s.result.Ok? ==> |IndexedTexts(s.effects)| == Questions.DefaultCount
    ensures !RepliedWithQuestions(reply, Questions.DefaultCount) ==> s.effects == [AskQuestions(summary, Questions.DefaultCount)]
    ensures UploadsPaired(s.effects) && UploadCount(s.effects) == |IndexedTexts(s.effects)|
    ensures s.result.Err? ==> s.result.error.AskRaised? || s.result.error.WrongQuestionCount? || s.result.error.IndexRaised?
    ensures s.result.Err? && s.result.error.IndexRaised? ==> (
      && RepliedWithQuestions(reply, Questions.DefaultCount)
      && s.result.error.question < Questions.DefaultCount
      && client(s.result.error.question).ClientRaised?
      && IndexedTexts(s.effects)
         == Questions.ParseQuestions(reply.value, Questions.DefaultCount).value[..s.result.error.question + 1])
  {
    var g := GenerateHypotheticals(summary, Questions.DefaultCount, reply);
    assert IndexedTexts(g.effects) == [];
    assert InStages(g.effects, 3, 3) && UsesPath(g.effects, filePath) && UploadsPaired(g.effects);
    assert UploadCount(g.effects) == 0;
    if g.result.Err? then Staged(g.effects, Err(g.result.error))
    else
      var qs := g.result.value;
      var ix := IndexFrom(filePath, qs, 0, tempPath, client);
      IndexedTextsAppend(g.effects, ix.effects);
      UsesPathAppend(g.effects, ix.effects, filePath);
      InStagesAppend(g.effects, ix.effects, 3, 3);
      UploadsPairedAppend(g.effects, ix.effects);
      PairedUploadsCounted(g.effects + ix.effects);
      assert qs[0..] == qs;
      assert ix.result.Err? ==> qs[0..ix.result.error.question + 1] == qs[..ix.result.error.question + 1];
      assert |qs| == Questions.DefaultCount;
      assert ix.result.Ok? <==> ClientAccepts(client, Questions.DefaultCount);
      Staged(g.effects + ix.effects, ix.result)
  }

  // ---------------------------------------------------------------------------
  // send_gif_to_supabase_pipeline

  /** The oracle answers of every collaborator the pipeline calls. */
  datatype Collaborators = Collaborators(
    uuid: string,                               // str(uuid.uuid4())
    supabaseUrl: string,                        // SUPABASE_URL
    description: Option<string>,                // summarize_gif's model reply
    compressed: Option<Bytes>,                  // compress_gif_bytes' output
    post: HttpOutcome,                          // requests.post
    createdAt: string,                          // datetime.utcnow().isoformat()
    insert: InsertOutcome,                      // gif_metadata insert
    questions: Option<string>,                  // generate_hypotheticals' model reply
    tempPath: nat -> string,                    // temp-file name of the i-th indexed question
    client: nat -> RagService.ClientOutcome)    // ViaRAG reply to the i-th indexed question

  /** The dictionary returned on success. */
  datatype Stored = Stored(summary: string, publicUrl: string, filePath: string)

  function FileId(uuid: string): string {
    uuid + ".gif"
  }

  function FilePath(uuid: string): string {
    BucketName + "/" + FileId(uuid)
  }

  /**
   Summarise the original bytes, upload, store the metadata row, index the
   paraphrases. Each stage is a hard gate and nothing done earlier is undone.
   */
  function SendGifToSupabasePipeline(gif: Bytes, c: Collaborators): (run: Staged<Stored>)
    ensures |run.effects| > 0 && run.effects[0] == DescribeGif(gif)
    ensures run.result.Ok? ==> (
      && c.description.Some?
      && run.result.value == Stored(c.description.value, PublicUrl(c.supabaseUrl, FileId(c.uuid)), FilePath(c.uuid)))
  {
    var fileId := FileId(c.uuid);
    var filePath := FilePath(c.uuid);
    var d := SummarizeGif(gif, c.description);
    if d.result.Err? then Staged(d.effects, Err(d.result.error))
    else
      var summary := d.result.value;
      var u := UploadGif(c.supabaseUrl, gif, fileId, c.compressed, c.post);
      var e1 := d.effects + u.effects;
      if u.result.Err? then Staged(e1, Err(u.result.error))
      else
        var publicUrl := u.result.value;
        var m := StoreMetadata(MetadataRow(filePath, publicUrl, summary, c.createdAt), c.insert);
        var e2 := e1 + m.effects;
        if m.result.Err? then Staged(e2, Err(m.result.error))
        else
          var v := AddToVectorStore(filePath, summary, c.questions, c.tempPath, c.client);
          var e3 := e2 + v.effects;
          if v.result.Err? then Staged(e3, Err(v.result.error))
          else Staged(e3, Ok(Stored(summary, publicUrl, filePath)))
  }

  /** Every collaborator answered in the way that lets the pipeline go on. */
  predicate AllStagesSucceed(gif: Bytes, c: Collaborators) {
    && c.description.Some?
    && (|gif| <= MaxUploadBytes || c.compressed.Some?)
    && UploadAccepted(c.post)
    && c.insert.InsertReturned? && c.insert.rows > 0
    && RepliedWithQuestions(c.questions, Questions.DefaultCount)
    && ClientAccepts(c.client, Questions.DefaultCount)
  }

  /** The pipeline returns its dictionary exactly when no stage raised. */
  lemma PipelineSucceedsIff(gif: Bytes, c: Collaborators)
    ensures SendGifToSupabasePipeline(gif, c).result.Ok? <==> AllStagesSucceed(gif, c)
  {
  }

  /** The stages `0, 1, ..., k`. */
  function Upto(k: nat): (r: seq<nat>)
    ensures |r| == k + 1
    ensures forall i :: 0 <= i < |r| ==> r[i] == i
  {
    if k == 0 then [0] else Upto(k - 1) + [k]
  }

  /** The stages the effects pass through, in order, each run of one stage counted once. */
  function StageTrace(effects: seq<Effect>): (t: seq<nat>)
    ensures |t| <= |effects|
    ensures |effects| > 0 <==> |t| > 0
    ensures |effects| > 0 ==> t[|t| - 1] == StageOf(effects[|effects| - 1])
    decreases |effects|
  {
    if |effects| == 0 then []
    else
      var init := StageTrace(effects[..|effects| - 1]);
      var s := StageOf(effects[|effects| - 1]);
      if |init| > 0 && init[|init| - 1] == s then init else init + [s]
  }

  /** Appending effects of one stage adds that stage to the trace, unless it is already the last one. */
  lemma {:induction false} StageTraceAppend(a: seq<Effect>, b: seq<Effect>, k: nat)
    requires |b| > 0 && InStages(b, k, k)
    ensures var t := StageTrace(a);
      StageTrace(a + b) == if |t| > 0 && t[|t| - 1] == k then t else t + [k]
    decreases |b|
  {
    var ab := a + b;
    var b' := b[..|b| - 1];
    assert ab[..|ab| - 1] == a + b';
    assert StageOf(ab[|ab| - 1]) == StageOf(b[|b| - 1]) == k;
    if |b'| > 0 {
      assert InStages(b', k, k) by {
        forall i | 0 <= i < |b'|
          ensures k <= StageOf(b'[i]) <= k
        {
          assert b'[i] == b[i];
        }
      }
      StageTraceAppend(a, b', k);
    } else {
      assert a + b' == a;
    }
  }

  /**
   The run went through stages `0` to `k` in order and no further: every stage
   up to `k` did something, and no effect of a later stage came before one of
   an earlier stage.
   */
  predicate Progressed(effects: seq<Effect>, k: nat) {
    StageTrace(effects) == Upto(k)
  }

  /** Running a stage `k` after stages `0..k-1` keeps the effects in order and enters stage `k`. */
  lemma ProgressStep(a: seq<Effect>, b: seq<Effect>, k: nat)
    requires 0 < k && Progressed(a, k - 1)
    requires |b| > 0 && InStages(b, k, k)
    ensures Progressed(a + b, k)
  {
    StageTraceAppend(a, b, k);
  }

  /** The effects of stages 0 to 3, each non-empty, run one after the other. */
  lemma StagesProgress(e0: seq<Effect>, e1: seq<Effect>, e2: seq<Effect>, e3: seq<Effect>)
    requires |e0| > 0 && InStages(e0, 0, 0)
    requires |e1| > 0 && InStages(e1, 1, 1)
    requires |e2| > 0 && InStages(e2, 2, 2)
    requires |e3| > 0 && InStages(e3, 3, 3)
    ensures Progressed(e0, 0)
    ensures Progressed(e0 + e1, 1)
    ensures Progressed(e0 + e1 + e2, 2)
    ensures Progressed(e0 + e1 + e2 + e3, 3)
  {
    StageTraceAppend([], e0, 0);
    assert [] + e0 == e0;
    ProgressStep(e0, e1, 1);
    ProgressStep(e0 + e1, e2, 2);
    ProgressStep(e0 + e1 + e2, e3, 3);
  }

  /**
   Effects happen stage by stage; a run that raises performed nothing past the
   failing stage and kept everything before it (there is no compensation).
   */
  lemma PipelineStopsAtFailure(gif: Bytes, c: Collaborators)
    ensures var run := SendGifToSupabasePipeline(gif, c);
      && (run.result.Err? ==> Progressed(run.effects, ErrorStage(run.result.error)))
      && (run.result.Ok? ==> Progressed(run.effects, 3))
  {
    var run := SendGifToSupabasePipeline(gif, c);
    var d := SummarizeGif(gif, c.description);
    var u := UploadGif(c.supabaseUrl, gif, FileId(c.uuid), c.compressed, c.post);
    var summary := if d.result.Ok? then d.result.value else "";
    var publicUrl := if u.result.Ok? then u.result.value else "";
    var m := StoreMetadata(MetadataRow(FilePath(c.uuid), publicUrl, summary, c.createdAt), c.insert);
    var v := AddToVectorStore(FilePath(c.uuid), summary, c.questions, c.tempPath, c.client);
    StagesProgress(d.effects, u.effects, m.effects, v.effects);
    if d.result.Err? {
      assert run == Staged(d.effects, Err(DescribeRaised));
      ErrorStages(DescribeRaised);
    } else if u.result.Err? {
      assert run == Staged(d.effects + u.effects, Err(u.result.error));
      ErrorStages(u.result.error);
    } else if m.result.Err? {
      assert run == Staged(d.effects + u.effects + m.effects, Err(m.result.error));
      ErrorStages(m.result.error);
    } else {
      assert run.effects == d.effects + u.effects + m.effects + v.effects;
      assert run.result.Err? == v.result.Err?;
      if v.result.Err? {
        assert run.result == Err(v.result.error);
        ErrorStages(v.result.error);
      }
    }
  }

  /**
   The GIF is stored under "gifs/<uuid>.gif": the metadata row and every
   indexed document carry that path, and on success so does the result.
   */
  lemma PipelineUsesOnePath(gif: Bytes, c: Collaborators)
    ensures var run := SendGifToSupabasePipeline(gif, c);
      && UsesPath(run.effects, FilePath(c.uuid))
      && (run.result.Ok? ==> run.result.value.filePath == FilePath(c.uuid))
    ensures FilePath(c.uuid)[..|BucketName| + 1] == BucketName + "/"
    ensures var p := FilePath(c.uuid); p[|p| - 4..] == ".gif"
  {
    var fileId := FileId(c.uuid);
    var filePath := FilePath(c.uuid);
    var d := SummarizeGif(gif, c.description);
    if d.result.Ok? {
      var u := UploadGif(c.supabaseUrl, gif, fileId, c.compressed, c.post);
      var e1 := d.effects + u.effects;
      UsesPathAppend(d.effects, u.effects, filePath);
      if u.result.Ok? {
        var m := StoreMetadata(MetadataRow(filePath, u.result.value, d.result.value, c.createdAt), c.insert);
        UsesPathAppend(e1, m.effects, filePath);
        if m.result.Ok? {
          var v := AddToVectorStore(filePath, d.result.value, c.questions, c.tempPath, c.client);
          UsesPathAppend(e1 + m.effects, v.effects, filePath);
        }
      }
    }
  }

  /**
   Indexing fans out to exactly three documents, the parsed questions in
   parser order, when the run succeeds; it uploads none when the question
   reply is missing or has the wrong count.
   */
  lemma PipelineFanOut(gif: Bytes, c: Collaborators)
    ensures var run := SendGifToSupabasePipeline(gif, c);
      && (run.result.Ok? ==> (
            && IndexedTexts(run.effects) == Questions.ParseQuestions(c.questions.value, Questions.DefaultCount).value
            && |IndexedTexts(run.effects)| == Questions.DefaultCount))
      && (c.questions.None? || Questions.ParseQuestions(c.questions.value, Questions.DefaultCount).Err? ==>
            IndexedTexts(run.effects) == [])
  {
    var run := SendGifToSupabasePipeline(gif, c);
    var d := SummarizeGif(gif, c.description);
    var u := UploadGif(c.supabaseUrl, gif, FileId(c.uuid), c.compressed, c.post);
    var summary := if d.result.Ok? then d.result.value else "";
    var publicUrl := if u.result.Ok? then u.result.value else "";
    var m := StoreMetadata(MetadataRow(FilePath(c.uuid), publicUrl, summary, c.createdAt), c.insert);
    var v := AddToVectorStore(FilePath(c.uuid), summary, c.questions, c.tempPath, c.client);
    IndexingComesLast(d.effects, u.effects, m.effects, v.effects);
    if d.result.Err? {
      assert run.effects == d.effects;
    } else if u.result.Err? {
      assert run.effects == d.effects + u.effects;
    } else if m.result.Err? {
      assert run.effects == d.effects + u.effects + m.effects;
    } else {
      assert run.effects == d.effects + u.effects + m.effects + v.effects;
      assert run.result.Ok? ==> v.result.Ok?;
    }
  }

  /** Across the whole pipeline every upload for indexing follows the write of its temp
      file, so the documents uploaded are exactly the indexed texts. */
  lemma PipelineUploadsPaired(gif: Bytes, c: Collaborators)
    ensures var run := SendGifToSupabasePipeline(gif, c);
      && UploadsPaired(run.effects)
      && UploadCount(run.effects) == |IndexedTexts(run.effects)|
  {
    var run := SendGifToSupabasePipeline(gif, c);
    var d := SummarizeGif(gif, c.description);
    var u := UploadGif(c.supabaseUrl, gif, FileId(c.uuid), c.compressed, c.post);
    var summary := if d.result.Ok? then d.result.value else "";
    var publicUrl := if u.result.Ok? then u.result.value else "";
    var m := StoreMetadata(MetadataRow(FilePath(c.uuid), publicUrl, summary, c.createdAt), c.insert);
    var v := AddToVectorStore(FilePath(c.uuid), summary, c.questions, c.tempPath, c.client);
    UploadsComeLast(d.effects, u.effects, m.effects, v.effects);
    if d.result.Err? {
      assert run.effects == d.effects;
    } else if u.result.Err? {
      assert run.effects == d.effects + u.effects;
    } else if m.result.Err? {
      assert run.effects == d.effects + u.effects + m.effects;
    } else {
      assert run.effects == d.effects + u.effects + m.effects + v.effects;
    }
    PairedUploadsCounted(run.effects);
  }

  lemma NoIndexBeforeStage3(effects: seq<Effect>)
    requires forall i :: 0 <= i < |effects| ==> !effects[i].Index?
    ensures IndexedTexts(effects) == []
    decreases |effects|
  {
    if |effects| > 0 {
      NoIndexBeforeStage3(effects[1..]);
    }
  }
}

=== FILE: subscriber.dfy ===
/**
 The capture side of the agent (agent/subscriber.py): the process-wide list of
 PNG-encoded frames capped at one hundred entries, the per-frame body of the
 video loop that fills it, and the data-packet handler that hands the newest
 frame to the image summariser when the topic is "button".

 OpenCV/LiveKit conversion is an oracle (`Conversion`); UTF-8 decoding and
 JSON parsing of a packet are an oracle (`Payload`). The event loop is
 single-threaded and there is no `await` between the append and the pop, so
 each handler invocation is modelled as one atomic step.
 */
module Subscriber {
  import opened Common

  /** The `png_buffer` returned by `cv2.imencode`. */
  type Frame = Bytes

  const MaxFrames: nat := 100
  const ButtonTopic: string := "button"

  /** The last `n` elements of `s`, or all of `s` when it is shorter. */
  function Newest<T>(s: seq<T>, n: nat): seq<T> {
    if |s| <= n then s else s[|s| - n..]
  }

  /** `FRAMES.append(f)` followed by `FRAMES.pop(0)` when the list grew past the cap. */
  function Append(buf: seq<Frame>, f: Frame): (r: seq<Frame>)
    ensures |buf| <= MaxFrames ==> |r| <= MaxFrames
    ensures |r| > 0 && r[|r| - 1] == f
    ensures |buf| < MaxFrames ==> r[..|r| - 1] == buf
    ensures |buf| >= MaxFrames ==> r[..|r| - 1] == buf[1..]
  {
    var grown := buf + [f];
    assert grown[..|grown| - 1] == buf;
    if |grown| > MaxFrames then
      assert grown[1..][..|grown| - 2] == buf[1..];
      grown[1..]
    else grown
  }

  /** Dropping a prefix that is older than the newest `n` changes nothing. */
  lemma NewestOfSuffix<T>(x: seq<T>, m: nat, n: nat)
    requires m + n <= |x|
    ensures Newest(x[m..], n) == Newest(x, n)
  {
    assert x[m..][|x| - m - n..] == x[|x| - n..];
  }

  /** Keeping the newest `n` and then appending loses nothing the newest `n` of the whole would keep. */
  lemma NewestAbsorbs<T>(s: seq<T>, t: seq<T>, n: nat)
    ensures Newest(Newest(s, n) + t, n) == Newest(s + t, n)
  {
    if |s| > n {
      var m := |s| - n;
      assert s[m..] + t == (s + t)[m..];
      NewestOfSuffix(s + t, m, n);
    }
  }

  /** From a buffer within the cap, one append keeps exactly the newest `MaxFrames` arrivals. */
  lemma AppendKeepsNewest(buf: seq<Frame>, f: Frame)
    requires |buf| <= MaxFrames
    ensures Append(buf, f) == Newest(buf + [f], MaxFrames)
  {
  }

  /** What `convert`, `reshape`, `cvtColor` and `imencode` made of one video frame. */
  datatype Conversion =
    | ConversionRaised                    // convert/reshape/cvtColor/imencode raised
    | Encoded(success: bool, png: Frame)  // imencode returned (success, png_buffer)

  datatype LogLine = Quiet | EncodeFailedLog | ConversionErrorLog

  datatype Ingest = Ingest(frames: seq<Frame>, log: LogLine)

  /** One iteration of the loop in `process_video_frames`. */
  function IngestFrame(buf: seq<Frame>, c: Conversion): (r: Ingest)
    ensures c.ConversionRaised? ==> r.frames == buf && r.log == ConversionErrorLog
    ensures c.Encoded? ==> r.frames == Append(buf, c.png)
    ensures r.log == EncodeFailedLog <==> c.Encoded? && !c.success
    ensures r.log == Quiet <==> c.Encoded? && c.success
  {
    match c
    case ConversionRaised => Ingest(buf, ConversionErrorLog)
    case Encoded(success, png) =>
      var frames := Append(buf, png);
      if success then Ingest(frames, Quiet) else Ingest(frames, EncodeFailedLog)
  }

  /** The frames of a run of iterations that reached the append, in arrival order. */
  function Buffered(cs: seq<Conversion>): seq<Frame> {
    if |cs| == 0 then []
    else
      var init := Buffered(cs[..|cs| - 1]);
      match cs[|cs| - 1]
      case ConversionRaised => init
      case Encoded(_, png) => init + [png]
  }

  /** Every iteration that reaches the append contributes its frame: there is no decimation counter. */
  lemma {:induction false} NoDecimation(cs: seq<Conversion>)
    requires forall i :: 0 <= i < |cs| ==> cs[i].Encoded?
    ensures |Buffered(cs)| == |cs|
    ensures forall i :: 0 <= i < |cs| ==> Buffered(cs)[i] == cs[i].png
  {
    if |cs| > 0 {
      NoDecimation(cs[..|cs| - 1]);
    }
  }

  /**
   The `async for` loop of `process_video_frames` over a run of conversions:
   the buffer ends up holding the newest `MaxFrames` frames that reached the
   append, in arrival order, whatever failed along the way.
   */
  method ProcessVideoFrames(buf: seq<Frame>, events: seq<Conversion>) returns (frames: seq<Frame>)
    requires |buf| <= MaxFrames
    ensures |frames| <= MaxFrames
    ensures frames == Newest(buf + Buffered(events), MaxFrames)
  {
    frames := buf;
    var i := 0;
    while i < |events|
      invariant 0 <= i <= |events|
      invariant |frames| <= MaxFrames
      invariant frames == Newest(buf + Buffered(events[..i]), MaxFrames)
    {
      var step := IngestFrame(frames, events[i]);
      assert events[..i + 1][..i] == events[..i];
      match events[i] {
        case ConversionRaised =>
        case Encoded(_, png) =>
          AppendKeepsNewest(frames, png);
          NewestAbsorbs(buf + Buffered(events[..i]), [png], MaxFrames);
          assert buf + Buffered(events[..i]) + [png] == buf + Buffered(events[..i + 1]);
      }
      frames := step.frames;
      i := i + 1;
    }
    assert events[..i] == events;
  }

  /**
   What the handler's first statements made of a packet: `NoSender` when the
   packet has no participant (one sent by a server), so that reading
   `data.participant.identity` for the log line raises; otherwise what
   `data.data.decode('utf-8')` and `json.loads` made of its bytes.
   */
  datatype Payload = NoSender | NotUtf8 | NotJson | Json

  /** The exception the handler lets escape; none of them is caught. */
  datatype HandlerError = AttributeError | UnicodeDecodeError | JsonDecodeError | IndexError

  datatype Dispatch =
    | Ignored
    | Summarize(frame: Frame)     // summarize_png(FRAMES[-1])
    | Raised(error: HandlerError)

  /**
   `on_data_received`: the sender is read, and the bytes decoded and parsed,
   for every topic, before the topic test.
   */
  function HandleData(topic: string, payload: Payload, buf: seq<Frame>): (r: Dispatch)
    ensures r.Summarize? <==> payload == Json && topic == ButtonTopic && |buf| > 0
    ensures r.Summarize? ==> r.frame == buf[|buf| - 1]
    ensures payload == NoSender ==> r == Raised(AttributeError)
    ensures payload == NotUtf8 ==> r == Raised(UnicodeDecodeError)
    ensures payload == NotJson ==> r == Raised(JsonDecodeError)
    ensures r == Raised(IndexError) <==> payload == Json && topic == ButtonTopic && |buf| == 0
    ensures r == Ignored <==> payload == Json && topic != ButtonTopic
  {
    match payload
    case NoSender => Raised(AttributeError)
    case NotUtf8 => Raised(UnicodeDecodeError)
    case NotJson => Raised(JsonDecodeError)
    case Json =>
      if topic != ButtonTopic then Ignored
      else if |buf| == 0 then Raised(IndexError)
      else Summarize(buf[|buf| - 1])
  }

  /** The two room callbacks, as the single-threaded event loop runs them. */
  datatype Event =
    | VideoFrame(conversion: Conversion)
    | DataPacket(topic: string, payload: Payload)

  datatype Reaction = Reaction(frames: seq<Frame>, dispatch: Option<Dispatch>)

  function OnEvent(buf: seq<Frame>, e: Event): (r: Reaction)
    ensures e.DataPacket? ==> r.frames == buf
    ensures e.DataPacket? ==> r.dispatch == Some(HandleData(e.topic, e.payload, buf))
    ensures e.VideoFrame? ==> r.dispatch.None? && r.frames == IngestFrame(buf, e.conversion).frames
  {
    match e
    case VideoFrame(c) => Reaction(IngestFrame(buf, c).frames, None)
    case DataPacket(topic, payload) => Reaction(buf, Some(HandleData(topic, payload, buf)))
  }

  /**
   A button press right after a frame reached the append summarises that very
   frame, even when its encoding reported failure.
   */
  lemma ButtonSummarizesLatestFrame(buf: seq<Frame>, success: bool, png: Frame)
    ensures var after := OnEvent(buf, VideoFrame(Encoded(success, png))).frames;
      OnEvent(after, DataPacket(ButtonTopic, Json)).dispatch == Some(Summarize(png))
  {
  }
}
